=== FILE: README.md ===
# Device event controller: keystroke listener bookkeeping and dispatch

A Dafny model of the keystroke interception core of the AT-SPI registry
daemon's device event controller (`registryd/deviceeventcontroller.c`).
The controller keeps two lists: the keystroke listeners in registration
order, and a registry of key masks, each a modifier bitmask with a count of
the listeners registered for it. On each key event check it peeks at the
next input event, relays it to the listeners in order until one consumes it,
takes the event off the queue only if it was consumed, and then runs a grab
pass over the registered masks in order. The pass asks for a passive key
grab for each mask without the Control modifier. At the first mask with
Control it returns failure and asks for no grab for that mask or any later
one.

The model is functional. The controller state is a pair of sequences. Register
and deregister are pure transitions. The relay is a loop over a sequence of
listener replies, checked against a loop-free definition of the first
consuming listener. The grab pass returns the grabs it made and its verdict.

Modules:

- `Base` (base.dfy): an optional value standing for a possibly-NULL pointer,
  the 32-bit unsigned mask value type, and the C conversions to a 32-bit
  signed integer and to a 16-bit unsigned integer.
- `EventMasks` (event_mask.dfy): the mask comparator, the lookup, and mask
  registration and deregistration. `AsMap` views the registry as a map from
  value to refcount; this is the reference the contracts are stated against.
- `Listeners` (listeners.dfy): the listener list.
- `DeviceEventController` (controller.dfy): the controller state and the
  register and deregister transitions per device type.
- `KeyGrab` (keygrab.dfy): the grab pass. The Control test is stated as
  bit 2 of the mask value, and a lemma shows it equal to the C test
  `value & ControlMask` on 32-bit values.
- `KeyDispatch` (dispatch.dfy): event decoding, the relay loop and the whole
  key event check.
- `AsWritten` (as_written.dfy): the literal behaviour of the code at the
  defects listed under Findings, each with an input on which it differs from
  the corrected model.

Behaviour of the code worth noting:

- Registration never rejects a mask. A mask with the Control modifier is
  recorded like any other. It only makes the grab pass fail.
- Grabs are not brought up to date at registration time, and there is no
  rollback. The grab pass runs at the end of every key event check. A pass
  that stops at a Control mask keeps the grabs it has already made.
- Deregistering a mask value that is not registered is not a harmless no-op:
  the code reads through a NULL pointer. The model's deregistration therefore
  requires the value to be present.
- Deregistration releases no grab. The code has only a placeholder there.
- Every peeked event is relayed to the listeners, not only key events. Only a
  key press fills in the keystroke, so a key release is relayed with a
  keystroke that was never filled in.
- There is no timeout on a listener call.
- The code requests the replay of the key event to its normal destination
  after every relay, also when a listener consumed it. Consuming an event
  only takes it off the daemon's own queue.

## Model

| member | source | states |
|---|---|---|
| Base.ToInt32 | registryd/deviceeventcontroller.c:96-97 | the cast to a 32-bit signed integer lands in range, agrees with its argument modulo 2^32, and is the identity on values already in range |
| Base.ToUint16 | registryd/deviceeventcontroller.c:245 | the cast to CORBA_unsigned_short lands below 2^16, agrees with its argument modulo 2^16, and is the identity below 2^16 |
| Base.Int32OfDifferenceZero | registryd/deviceeventcontroller.c:96-97 | the difference of two 32-bit unsigned values, cast to a 32-bit gint, is zero exactly when the values are equal |
| EventMasks.Compare | registryd/deviceeventcontroller.c:90-98 | the comparator returns 0 exactly when both masks are NULL or both have the same value; NULL against a mask gives -1, a mask against NULL gives 1 |
| EventMasks.FindMask | registryd/deviceeventcontroller.c:114-116 | the lookup finds the first entry whose value equals the mask's, and finds nothing exactly when no entry has that value |
| EventMasks.FirstMatch | registryd/deviceeventcontroller.c:114-116 | whenever position i holds the value and no earlier entry does, the lookup answers exactly i |
| EventMasks.RegisterMask | registryd/deviceeventcontroller.c:114-134 | after registration the value is present; the list grows only for a new value, which is appended with refcount 1 whatever the caller's refcount; every existing entry keeps its value and position |
| EventMasks.RegisterMaskCounts | registryd/deviceeventcontroller.c:114-134 | as a value-to-refcount map, registration adds one reference to the value, or enters it with refcount 1; the entries with other values are unchanged in order |
| EventMasks.RegisterMaskInPlace | registryd/deviceeventcontroller.c:114-118 | registering a present value updates the first entry holding it in place, one reference up, and leaves every other entry at its position with its refcount |
| EventMasks.DeregisterMask | registryd/deviceeventcontroller.c:160-169 | deregistration removes at most one entry: when the list shrinks, the result is the list with exactly one entry taken out; when it keeps its length, every entry keeps its value and position |
| EventMasks.DeregisterMaskCounts | registryd/deviceeventcontroller.c:160-169 | for a registered value, the list shrinks by one exactly when its refcount was 1 and keeps its length otherwise; entries with other values are unchanged in order; on a well-formed registry the last reference removes the value from the map view |
| EventMasks.DeregisterMaskLowers | registryd/deviceeventcontroller.c:160-164 | while a registered value has more than one reference, deregistration lowers its refcount in the map view by one and changes no other value |
| EventMasks.DeregisterMaskInPlace | registryd/deviceeventcontroller.c:160-169 | deregistration touches only the first entry holding the value: with more than one reference it loses one in place and all other entries stay put; with its last reference it leaves the list and the entries before and after it keep their order |
| EventMasks.RegisterPreservesWellFormed | registryd/deviceeventcontroller.c:114-134 | registration keeps mask values pairwise distinct and every refcount at least 1 |
| EventMasks.DeregisterPreservesWellFormed | registryd/deviceeventcontroller.c:160-169 | deregistration keeps mask values pairwise distinct and every refcount at least 1 |
| EventMasks.RegisterThenDeregister | registryd/deviceeventcontroller.c:114-169 | on a well-formed registry, registering a mask and deregistering it again gives back exactly the original list, for a new value and for a present one |
| EventMasks.SingleEntry | registryd/deviceeventcontroller.c:114-169 | on a registry holding one value with refcount k, registering it gives refcount k + 1, and deregistering it gives k - 1, or removes the entry when k is at most 1 |
| Listeners.IndexOf | registryd/deviceeventcontroller.c:156 | the listener lookup finds the first equivalent listener |
| Listeners.AddListener | registryd/deviceeventcontroller.c:110-112 | registration appends the listener after all earlier ones, which keep their order; a listener already present is counted once more |
| Listeners.RemoveListener | registryd/deviceeventcontroller.c:156-158 | deregistration removes at most one listener, and a list that keeps its length comes back unchanged (which entry goes is stated by RemoveListenerRemovesFirst and RemoveListenerAbsent) |
| Listeners.RemoveListenerRemovesFirst | registryd/deviceeventcontroller.c:156-158 | deregistration removes exactly the first equivalent listener and keeps the listeners before and after it in order |
| Listeners.RemoveListenerAbsent | registryd/deviceeventcontroller.c:156-158 | deregistering a listener with no equivalent in the list changes nothing |
| Listeners.RemoveListenerCount | registryd/deviceeventcontroller.c:156-158 | when the listener is present, the multiset of listeners before deregistration is the one after it plus one copy of the listener; when it is absent the list is unchanged |
| Listeners.AddThenRemoveNew | registryd/deviceeventcontroller.c:110-158 | appending a listener that was not registered and removing it again gives back the list |
| Listeners.AddThenRemoveExisting | registryd/deviceeventcontroller.c:110-158 | appending a listener that was already registered and removing it again drops the older registration; the new one stays at the end |
| Listeners.AddThenRemoveCount | registryd/deviceeventcontroller.c:110-158 | appending a listener and removing it again leaves the same multiset of registrations, and exactly the original list when the listener was new |
| DeviceEventController.RegisterDeviceListener | registryd/deviceeventcontroller.c:100-143 | a keyboard registration appends the listener after the earlier ones and leaves the mask value registered; a mouse registration changes nothing |
| DeviceEventController.RegisterDeviceListenerCounts | registryd/deviceeventcontroller.c:105-134 | a keyboard registration adds one reference to the mask value, entering it at refcount 1 when new, and leaves entries with other values alone |
| DeviceEventController.DeregisterDeviceListener | registryd/deviceeventcontroller.c:145-178 | a keyboard deregistration removes exactly the first registration of the listener when there is one, the listeners before and after it keeping their order, so one copy leaves the multiset; with none the list is unchanged; a mouse deregistration changes nothing |
| DeviceEventController.DeregisterDeviceListenerCounts | registryd/deviceeventcontroller.c:153-169 | a keyboard deregistration of a registered value shrinks the mask list exactly when the value's refcount was 1, otherwise takes one reference away, and leaves entries with other values alone; on a valid controller the last reference removes the value |
| DeviceEventController.RegisterKeystrokeListener | registryd/deviceeventcontroller.c:364-377 | the keystroke entry point appends the listener after the earlier ones, kept in order; as a value-to-refcount map the registry gains one reference to the mask value, or enters it at refcount 1, and entries with other values are unchanged in order |
| DeviceEventController.TransitionsPreserveValid | registryd/deviceeventcontroller.c:100-178 | both transitions, for both device types, keep the mask registry well formed |
| DeviceEventController.RegisterThenDeregisterListener | registryd/deviceeventcontroller.c:100-178 | a keyboard register followed by a deregister of the same listener and mask restores the mask registry and the multiset of listeners, and the whole state when the listener was new |
| DeviceEventController.SharedMaskLifecycle | registryd/deviceeventcontroller.c:114-169 | starting from an empty mask registry, whatever listeners are registered, two listeners on one value share one entry with refcount 2; the first deregistration leaves refcount 1 and the second removes the entry |
| KeyGrab.MaskVal | registryd/deviceeventcontroller.c:320-327 | an entry contributes its own value, and a NULL entry reads as a value with Control set, which is never grabbed |
| KeyGrab.GrabbableIsMaskTest | registryd/deviceeventcontroller.c:327 | the grabbability test agrees with the C bit test `maskVal & ControlMask` on 32-bit values |
| KeyGrab.GrabPass | registryd/deviceeventcontroller.c:318-344 | the pass grabs the entries' values in list order, each without Control; it succeeds exactly when it grabbed every entry, and otherwise the entry after the last grab has Control |
| KeyGrab.GrabPassSucceedsIff | registryd/deviceeventcontroller.c:318-344 | the pass succeeds exactly when no entry has Control, and then it has grabbed every entry in order |
| KeyGrab.NullEntryFails | registryd/deviceeventcontroller.c:322-327 | a NULL entry makes the pass fail |
| KeyGrab.GrabKeyboard | registryd/deviceeventcontroller.c:299-345 | over the controller's registry, the pass succeeds exactly when no registered value has Control, and then it has grabbed every value; it grabs a prefix of the values in order, every grabbed value is free of Control, and a failing pass stops at a Control value; an empty registry gives success with no grabs |
| KeyDispatch.DecodeKeyEvent | registryd/deviceeventcontroller.c:238-258 | only a key press yields a keystroke; it is marked pressed, its modifiers are the event state modulo 2^16 and its key id is the key symbol cast to 32 bits |
| KeyDispatch.NonNilBelow | registryd/deviceeventcontroller.c:266-275 | the positions below a bound that hold a non-nil listener, all of them, in increasing order |
| KeyDispatch.FirstConsumerFrom | registryd/deviceeventcontroller.c:266-275 | the first listener from a position on that is not nil and replies true, or none when no later listener does |
| KeyDispatch.Relay | registryd/deviceeventcontroller.c:266-275 | the loop consumes the event exactly when some non-nil listener replies true; it calls the non-nil listeners in order up to and including the first such one, and all non-nil listeners when there is none; with no listeners nothing is called and nothing consumed |
| KeyDispatch.SomeConsumerIff | registryd/deviceeventcontroller.c:266-275 | some non-nil listener replies true exactly when the loop-free first consumer exists |
| KeyDispatch.RelayStopsAtFirstConsumer | registryd/deviceeventcontroller.c:266-275 | of the listeners called, every one but the last replied false; when the event is consumed the last one called is the first consumer |
| KeyDispatch.CheckKeyEvent | registryd/deviceeventcontroller.c:207-297 | the keystroke is the decoded peeked event; the listeners called are exactly the non-nil ones up to and including the first that consumes the event, or all non-nil ones when none does, and all but the last of them replied false; the event is taken off the queue exactly when a listener consumed it and otherwise stays at its head (the replay request that follows is made in both cases and is not modelled); with no listeners the queue is untouched; the result is the grab pass verdict, true exactly when no registered mask has Control |
| AsWritten.RegisterMaskAsWritten | registryd/deviceeventcontroller.c:114-134 | as written, a new value is appended with refcount 1; registering a present value writes the increment into the list node's pointer field, exactly when the value is present; registration never reads through NULL |
| AsWritten.DeregisterMaskAsWritten | registryd/deviceeventcontroller.c:160-169 | as written, no keyboard mask deregistration has a defined outcome: it reads through NULL exactly when the value is absent, and writes the decrement into the list node's pointer field exactly when it is present |
| AsWritten.RemoveListenerAsWritten | registryd/deviceeventcontroller.c:156-158 | as written, listener removal changes neither the length nor the count of the listener |
| AsWritten.DeregisterAsWritten | registryd/deviceeventcontroller.c:145-170 | as written, a keyboard deregistration never has a defined outcome: whatever the listener, it reads through NULL exactly when the mask value is unregistered and writes into a list node exactly when it is registered |
| AsWritten.RegisterTwiceAsWrittenFails | registryd/deviceeventcontroller.c:114-118 | as written, a first registration is defined and the second registration of the same value writes into the list node; the corrected registry gives one entry with refcount 2 |
| AsWritten.DeregisterAsWrittenFails | registryd/deviceeventcontroller.c:160-167 | as written, the last deregistration of a registered value writes into its list node, where the corrected registry drops the entry; deregistering an unregistered value reads through NULL |
| AsWritten.RemoveListenerAsWrittenKeepsListener | registryd/deviceeventcontroller.c:156-158 | a deregistered listener stays in the list as written and is gone in the corrected list |
| AsWritten.AsWrittenRoundTripFails | registryd/deviceeventcontroller.c:145-170 | after one registration on the empty controller, deregistration as written writes into a list node and so is undefined, while the corrected deregistration returns the controller to its initial empty state |

## Left out

- X11 calls (`XSelectInput`, `XPeekEvent`, `XNextEvent`, `XAllowEvents`, `XGrabKey`, `XLookupKeysym`) are not modelled. The peeked event and the looked-up key symbol are inputs. The queue stands for the event stream. The grab pass returns the list of values it would grab.
- CheckKeyEvent: `XPeekEvent` blocks until an event arrives, so the model requires a non-empty queue. The unconditional `XAllowEvents` replay call is not modelled.
- Listener calls are remote calls. What each listener would answer is an input sequence, and listener identity is plain equality on an opaque handle. The effect of CORBA object duplication and equivalence is not modelled. Neither is exception handling.
- Object type registration, class set-up, finalisation and instance initialisation are not modelled (lines 347-358 and 428-494). The initial state is the empty controller, `DeviceEventController.Initial`. `_controller_register_with_devices` (lines 180-205) only makes X calls.
- `impl_generate_key_event` and `impl_generate_mouse_event` do nothing apart from debug output (lines 402-426), so they are left out.
- The debug-build shift-lock mask injection (lines 290-295) and all diagnostic output are left out.
- No deregistration entry point is installed at lines 437-440, and the mouse registration entry point is commented out (lines 383-396). The model still covers both device types of the internal register and deregister functions.
- AsWritten.RegisterMaskAsWritten, AsWritten.DeregisterMaskAsWritten, AsWritten.DeregisterAsWritten: the bytes the code writes into a list node are not modelled. A path that writes them ends in `NodeWrite`, and a path that reads through NULL ends in `NullRead`. Both stand for undefined behaviour, and nothing after them is modelled.
- Concurrency and re-entrancy: the key event check relays and grabs over one fixed controller state. In the code, the listener count is read once (line 221), and each listener call is a blocking remote call (line 273). Registrations from other clients may be processed during that call and change the listener list and the mask registry before the grab pass reads them (lines 304-306). Such interleavings are not modelled.
- DeregisterDeviceListener: requires the mask value to be registered for the keyboard, because the code dereferences NULL otherwise (line 165). The crash itself is modelled by `AsWritten.DeregisterMaskAsWritten`.
- RegisterMask: refcounts are unbounded. The code stores them in a 16-bit `CORBA_unsigned_short`, which would wrap after 65535 registrations of one value.
- DeregisterMask: an entry with refcount 0 is dropped. In the code, the decrement would wrap it to 65535. Such an entry never occurs in a well-formed registry.
- Compare: assumes a 64-bit `long`, so the difference of two 32-bit values is exact before the cast to `gint`.
- `cspi/spi_table.c`, `atk-adaptor/adaptors/action-adaptor.c` and `libspi/hypertext.c` are forwarding shims around remote or toolkit calls. They are not part of this model.

## Findings

| source | as written | input that shows it | evidently intended | confidence | as-written member | corrected member |
|---|---|---|---|---|---|---|
| registryd/deviceeventcontroller.c:114-118 | the list node returned by the lookup is used as the mask entry, so the increment writes 16 bits at offset 4 of the node, inside its `data` pointer on a 64-bit build or its `next` pointer on a 32-bit one; the entry's refcount stays 1 and the list holds a bad pointer that the next comparison or grab pass reads through | registering the same value twice on an empty registry | the entry's refcount becomes 2 | not executed; high | AsWritten.RegisterTwiceAsWrittenFails | EventMasks.RegisterMaskCounts |
| registryd/deviceeventcontroller.c:160-169 | the node is again used as the entry, so the decrement and the zero test work on bytes of the node's pointer field and corrupt the list; the removal is passed the node, which no list element holds, so an entry is never dropped; an unregistered value is read through NULL | deregistering value v from the registry holding only (v, 1) | the entry is dropped when its last reference goes | not executed; high | AsWritten.DeregisterAsWrittenFails | EventMasks.DeregisterMaskCounts |
| registryd/deviceeventcontroller.c:156-158 | the removal is passed the list node instead of the listener, so the listener stays registered and keeps receiving events | deregistering listener l from the list holding only l | the first equivalent listener is removed | not executed; high | AsWritten.RemoveListenerAsWrittenKeepsListener | Listeners.RemoveListenerRemovesFirst |

=== FILE: as_written.dfy ===
/** The listener bookkeeping as the C code literally behaves, for the three
    places where it departs from its evident intent. The rest of the model
    uses the corrected definitions; each lemma here names an input on which
    the two differ.

    - Both register and deregister look a mask up with g_list_find_custom,
      which returns the list node holding the entry, and use that node as
      if it were the entry. Raising or lowering "its" refcount writes 16
      bits at offset 4 of the node: inside its `data` pointer on a 64-bit
      build, inside its `next` pointer on a 32-bit one. The entry's own
      refcount never changes, and the list is left holding a bad pointer
      that the next comparator call or grab pass reads through. From that
      write on the behaviour is undefined; `NodeWrite` stands for it here.
    - Deregistering a keyboard mask whose value is not registered reads the
      refcount through a NULL pointer, undefined as well: `NullRead`.
    - Listener deregistration calls g_list_remove with the node found,
      while g_list_remove compares against the data the nodes hold. No
      listener reference is ever the node itself, so nothing is removed. */
module AsWritten {
  import opened Base
  import opened EventMasks
  import opened Listeners
  import opened DeviceEventController

  /** The outcome of a step as written: a defined result, or one of the two
      ways the code leaves defined behaviour, a read through a NULL entry
      pointer or a write into the list node taken for an entry. */
  datatype Outcome<T> = Defined(value: T) | NullRead | NodeWrite

  /** Mask registration as written: a new value is appended with refcount
      1; a value already present has the node under its entry overwritten. */
  function RegisterMaskAsWritten(ms: seq<EventMask>, m: EventMask): (r: Outcome<seq<EventMask>>)
    ensures !r.NullRead?
    ensures r.NodeWrite? <==> Present(ms, m.value)
    ensures r.Defined? ==> r.value == ms + [EventMask(m.value, 1)]
  {
    match FindMask(ms, m)
    case Some(_) => NodeWrite
    case None => Defined(ms + [EventMask(m.value, 1)])
  }

  /** Mask deregistration as written: an absent value is read through NULL
      and a present one has its node overwritten, so no deregistration has a
      defined outcome. */
  function DeregisterMaskAsWritten(ms: seq<EventMask>, m: EventMask): (r: Outcome<seq<EventMask>>)
    ensures r.NullRead? <==> !Present(ms, m.value)
    ensures r.NodeWrite? <==> Present(ms, m.value)
  {
    match FindMask(ms, m)
    case Some(_) => NodeWrite
    case None => NullRead
  }

  /** Listener removal as written: the list is searched for the node that
      holds the listener, which it never contains as data. */
  function RemoveListenerAsWritten(ls: seq<Listener>, l: Listener): (r: seq<Listener>)
    ensures multiset(r)[l] == multiset(ls)[l]
    ensures |r| == |ls|
  {
    ls
  }

  /** Keyboard deregistration as written: the listener list is left as it
      was, and the mask part decides the outcome, a NULL read for an
      unregistered value and a node write for a registered one. */
  function DeregisterAsWritten(c: Controller, l: Listener, mask: EventMask)
    : (r: Outcome<Controller>)
    ensures r.NullRead? <==> !Present(c.keymasks, mask.value)
    ensures r.NodeWrite? <==> Present(c.keymasks, mask.value)
  {
    match DeregisterMaskAsWritten(c.keymasks, mask)
    case Defined(ms) => Defined(Controller(RemoveListenerAsWritten(c.keyListeners, l), ms))
    case NullRead => NullRead
    case NodeWrite => NodeWrite
  }

  /** Registering one value twice is undefined as written, where the
      corrected registry counts 2 references in one entry. */
  lemma RegisterTwiceAsWrittenFails(v: Value)
    ensures var m := EventMask(v, 1);
      && RegisterMaskAsWritten([], m) == Defined([EventMask(v, 1)])
      && RegisterMaskAsWritten([EventMask(v, 1)], m) == NodeWrite
      && RegisterMask(RegisterMask([], m), m) == [EventMask(v, 2)]
  {
    var m := EventMask(v, 1);
    assert [] + [m] == [m];
    assert Present([EventMask(v, 1)], v) by {
      assert [EventMask(v, 1)][0].value == v;
    }
    SingleEntry(v, 1, m);
  }

  /** The last deregistration of a value writes into its list node as
      written, where the corrected registry drops the entry; the
      deregistration of a value never registered reads through NULL. */
  lemma DeregisterAsWrittenFails(v: Value)
    ensures var m := EventMask(v, 1);
      && DeregisterMaskAsWritten([m], m) == NodeWrite
      && DeregisterMaskAsWritten([], m) == NullRead
      && Present([m], v)
      && DeregisterMask([m], m) == []
  {
    var m := EventMask(v, 1);
    assert [m][0].value == v;
    SingleEntry(v, 1, m);
  }

  /** A deregistered listener stays in the list as written, so it is still
      called for every later event; the corrected list no longer holds it. */
  lemma RemoveListenerAsWrittenKeepsListener(l: Listener)
    ensures RemoveListenerAsWritten([l], l) == [l]
    ensures RemoveListener([l], l) == []
  {
  }

  /** After one registration, deregistration as written writes into a list
      node and has no defined outcome, so a register-deregister pair never
      returns to the starting state; the corrected pair does. */
  lemma AsWrittenRoundTripFails(l: Listener, v: Value)
    ensures var m := EventMask(v, 1);
      var c := RegisterDeviceListener(Initial, l, m, Keyboard);
      && c == Controller([l], [m])
      && DeregisterAsWritten(c, l, m) == NodeWrite
      && DeregisterDeviceListener(c, l, m, Keyboard) == Initial
  {
    var m := EventMask(v, 1);
    RegisterThenDeregisterListener(Initial, l, m);
    assert !Present([], v);
  }
}

=== FILE: base.dfy ===
/** Machine-level helpers shared by the device event controller model:
    an optional value (a possibly-NULL pointer), the CORBA integer widths
    the controller stores and the C conversions between them. */
module Base {

  /** A pointer that may be NULL. */
  datatype Option<+T> = None | Some(value: T)

  const TWO_16: int := 0x1_0000
  const TWO_31: int := 0x8000_0000
  const TWO_32: int := 0x1_0000_0000

  /** CORBA_unsigned_long: the width of a mask value. */
  type Value = x: int | 0 <= x < TWO_32

  /** Conversion of an integer to a 32-bit two's-complement `gint` or
      `CORBA_long`: the C cast keeps the low 32 bits. */
  function ToInt32(x: int): (r: int)
    ensures -TWO_31 <= r < TWO_31
    ensures (r - x) % TWO_32 == 0
    ensures -TWO_31 <= x < TWO_31 ==> r == x
  {
    (x + TWO_31) % TWO_32 - TWO_31
  }

  /** Conversion of a non-negative integer to `CORBA_unsigned_short`. */
  function ToUint16(x: nat): (r: nat)
    ensures r < TWO_16
    ensures (x - r) % TWO_16 == 0
    ensures x < TWO_16 ==> r == x
  {
    x % TWO_16
  }

  /** A difference of two 32-bit unsigned values survives the cast to a
      32-bit `gint` as zero exactly when it is zero. */
  lemma {:induction false} Int32OfDifferenceZero(a: Value, b: Value)
    ensures ToInt32(b - a) == 0 <==> a == b
  {
    var d := b - a;
    assert -TWO_32 < d < TWO_32;
    if d >= 0 {
      assert (d + TWO_31) % TWO_32 == (if d < TWO_31 then d + TWO_31 else d - TWO_31);
    } else {
      assert (d + TWO_31) % TWO_32 == (if d >= -TWO_31 then d + TWO_31 else d + TWO_31 + TWO_32);
    }
  }
}

=== FILE: controller.dfy ===
/** The device event controller's listener bookkeeping: registration and
    deregistration of a listener with its event mask, per device type. */
module DeviceEventController {
  import opened Base
  import opened EventMasks
  import opened Listeners

  /** DeviceTypeCategory. */
  datatype DeviceType = Keyboard | Mouse

  /** The controller's state: its keystroke listeners in registration order
      and its key-mask registry. */
  datatype Controller = Controller(keyListeners: seq<Listener>, keymasks: seq<EventMask>)

  /** A freshly initialised controller holds no listeners and no masks. */
  const Initial: Controller := Controller([], [])

  predicate Valid(c: Controller) {
    WellFormed(c.keymasks)
  }

  /** Registration of a device listener. A keyboard listener is appended to
      the listener list and its mask is counted in the registry; a mouse
      registration is accepted and ignored. */
  function RegisterDeviceListener(c: Controller, l: Listener, mask: EventMask, t: DeviceType): (r: Controller)
    ensures t == Mouse ==> r == c
    ensures t == Keyboard ==> (|r.keyListeners| == |c.keyListeners| + 1
      && r.keyListeners[..|c.keyListeners|] == c.keyListeners && r.keyListeners[|c.keyListeners|] == l)
    ensures t == Keyboard ==> Present(r.keymasks, mask.value)
  {
    match t
    case Keyboard =>
      var ls := AddListener(c.keyListeners, l);
      var ms := RegisterMask(c.keymasks, mask);
      Controller(ls, ms)
    case Mouse => c
  }

  /** Deregistration of a device listener. For the keyboard the mask value
      must be registered; the first equivalent listener is removed, if any,
      and the mask loses one reference. A mouse deregistration is ignored. */
  function DeregisterDeviceListener(c: Controller, l: Listener, mask: EventMask, t: DeviceType): (r: Controller)
    requires t == Keyboard ==> Present(c.keymasks, mask.value)
    ensures t == Mouse ==> r == c
    ensures t == Keyboard && l in c.keyListeners ==> multiset(c.keyListeners) == multiset(r.keyListeners) + multiset{l}
    ensures t == Keyboard && l !in c.keyListeners ==> r.keyListeners == c.keyListeners
    ensures t == Keyboard && l in c.keyListeners ==>
      var i := IndexOf(c.keyListeners, l);
      r.keyListeners == c.keyListeners[..i] + c.keyListeners[i + 1..]
  {
    match t
    case Keyboard =>
      if l in c.keyListeners then
        RemovePresentCount(c.keyListeners, l);
        Controller(RemoveListener(c.keyListeners, l), DeregisterMask(c.keymasks, mask))
      else
        RemoveListenerAbsent(c.keyListeners, l);
        Controller(c.keyListeners, DeregisterMask(c.keymasks, mask))
    case Mouse => c
  }

  /** The registerKeystrokeListener entry point: a keyboard registration. */
  function RegisterKeystrokeListener(c: Controller, l: Listener, mask: EventMask): (r: Controller)
    ensures |r.keyListeners| == |c.keyListeners| + 1
    ensures r.keyListeners[..|c.keyListeners|] == c.keyListeners && r.keyListeners[|c.keyListeners|] == l
    ensures multiset(r.keyListeners)[l] == multiset(c.keyListeners)[l] + 1
    ensures Present(r.keymasks, mask.value)
    ensures AsMap(r.keymasks) == Bump(AsMap(c.keymasks), mask.value)
    ensures Without(r.keymasks, mask.value) == Without(c.keymasks, mask.value)
  {
    RegisterMaskCounts(c.keymasks, mask);
    RegisterDeviceListener(c, l, mask, Keyboard)
  }

  /** Keyboard registration adds one reference to the mask's value, at
      refcount 1 when it is new, and changes no other entry. */
  lemma RegisterDeviceListenerCounts(c: Controller, l: Listener, mask: EventMask)
    ensures var r := RegisterDeviceListener(c, l, mask, Keyboard);
      && AsMap(r.keymasks) == Bump(AsMap(c.keymasks), mask.value)
      && Without(r.keymasks, mask.value) == Without(c.keymasks, mask.value)
  {
    KeyboardMasks(c, l, mask);
    RegisterMaskCounts(c.keymasks, mask);
  }

  /** Keyboard deregistration takes one reference from the mask's value and
      drops the entry with the last; no other entry changes. */
  lemma DeregisterDeviceListenerCounts(c: Controller, l: Listener, mask: EventMask)
    requires Present(c.keymasks, mask.value)
    ensures mask.value in AsMap(c.keymasks)
    ensures var r := DeregisterDeviceListener(c, l, mask, Keyboard);
      && |r.keymasks| == (if AsMap(c.keymasks)[mask.value] <= 1 then |c.keymasks| - 1 else |c.keymasks|)
      && Without(r.keymasks, mask.value) == Without(c.keymasks, mask.value)
      && (AsMap(c.keymasks)[mask.value] > 1 ==>
            AsMap(r.keymasks) == AsMap(c.keymasks)[mask.value := AsMap(c.keymasks)[mask.value] - 1])
      && (AsMap(c.keymasks)[mask.value] <= 1 && Valid(c) ==>
            AsMap(r.keymasks) == AsMap(c.keymasks) - {mask.value})
  {
    var ms, v := c.keymasks, mask.value;
    var rm := DeregisterMask(ms, mask);
    var r := DeregisterDeviceListener(c, l, mask, Keyboard);
    assert r.keymasks == rm by {
      KeyboardMasks(c, l, mask);
    }
    assert v in AsMap(ms)
      && |rm| == (if AsMap(ms)[v] <= 1 then |ms| - 1 else |ms|)
      && Without(rm, v) == Without(ms, v)
      && (AsMap(ms)[v] <= 1 && Valid(c) ==> AsMap(rm) == AsMap(ms) - {v}) by {
      DeregisterMaskCounts(ms, mask);
    }
    assert AsMap(ms)[v] > 1 ==> AsMap(rm) == AsMap(ms)[v := AsMap(ms)[v] - 1] by {
      DeregisterMaskLowers(ms, mask);
    }
  }

  /** Both transitions keep the registry well formed. */
  lemma TransitionsPreserveValid(c: Controller, l: Listener, mask: EventMask, t: DeviceType)
    requires Valid(c)
    ensures Valid(RegisterDeviceListener(c, l, mask, t))
    ensures t == Keyboard ==> Present(c.keymasks, mask.value) ==> Valid(DeregisterDeviceListener(c, l, mask, t))
  {
    if t == Keyboard {
      RegisterPreservesWellFormed(c.keymasks, mask);
      if Present(c.keymasks, mask.value) {
        DeregisterPreservesWellFormed(c.keymasks, mask);
      }
    }
  }

  /** Registering a keystroke listener and deregistering it with the same
      mask restores the mask registry exactly and the listener list up to
      which of two equivalent registrations is dropped. */
  lemma RegisterThenDeregisterListener(c: Controller, l: Listener, mask: EventMask)
    requires Valid(c)
    ensures var c' := DeregisterDeviceListener(RegisterDeviceListener(c, l, mask, Keyboard), l, mask, Keyboard);
      && c'.keymasks == c.keymasks
      && multiset(c'.keyListeners) == multiset(c.keyListeners)
      && (l !in c.keyListeners ==> c' == c)
  {
    var r := RegisterDeviceListener(c, l, mask, Keyboard);
    var c' := DeregisterDeviceListener(r, l, mask, Keyboard);
    assert c'.keymasks == c.keymasks by {
      KeyboardMasks(c, l, mask);
      KeyboardMasks(r, l, mask);
      RegisterThenDeregister(c.keymasks, mask);
    }
    assert c'.keyListeners == RemoveListener(c.keyListeners + [l], l) by {
      assert r.keyListeners == c.keyListeners + [l];
    }
    AddThenRemoveCount(c.keyListeners, l);
  }

  /** On an empty mask registry, whatever listeners are already there, two
      listeners registered with one mask value share one entry, which
      survives the first deregistration and goes with the second. */
  lemma SharedMaskLifecycle(c: Controller, a: Listener, b: Listener, v: Value)
    requires c.keymasks == []
    ensures var m := EventMask(v, 1);
      var c1 := RegisterKeystrokeListener(c, a, m);
      var c2 := RegisterKeystrokeListener(c1, b, m);
      && c2.keymasks == [EventMask(v, 2)]
      && var c3 := DeregisterDeviceListener(c2, a, m, Keyboard);
      && c3.keymasks == [EventMask(v, 1)]
      && DeregisterDeviceListener(c3, b, m, Keyboard).keymasks == []
  {
    var m := EventMask(v, 1);
    var c1 := RegisterKeystrokeListener(c, a, m);
    assert c1.keymasks == [EventMask(v, 1)] by {
      KeyboardMasks(c, a, m);
      assert !Present([], v);
    }
    var c2 := RegisterKeystrokeListener(c1, b, m);
    RegisterOnSingle(c1, b, v, 1);
    var c3 := DeregisterDeviceListener(c2, a, m, Keyboard);
    DeregisterOnSingle(c2, a, v, 2);
    DeregisterOnSingle(c3, b, v, 1);
  }

  /** A keystroke registration on a registry holding one entry for the
      same value raises that entry's refcount. */
  lemma RegisterOnSingle(c: Controller, l: Listener, v: Value, k: nat)
    requires c.keymasks == [EventMask(v, k)]
    ensures RegisterKeystrokeListener(c, l, EventMask(v, 1)).keymasks == [EventMask(v, k + 1)]
  {
    KeyboardMasks(c, l, EventMask(v, 1));
    SingleEntry(v, k, EventMask(v, 1));
  }

  /** A keyboard deregistration on a registry holding one entry for the
      same value lowers that entry's refcount, or drops it at the last. */
  lemma DeregisterOnSingle(c: Controller, l: Listener, v: Value, k: nat)
    requires c.keymasks == [EventMask(v, k)]
    ensures Present(c.keymasks, v)
    ensures DeregisterDeviceListener(c, l, EventMask(v, 1), Keyboard).keymasks
      == if k <= 1 then [] else [EventMask(v, k - 1)]
  {
    assert c.keymasks[0].value == v;
    KeyboardMasks(c, l, EventMask(v, 1));
    SingleEntry(v, k, EventMask(v, 1));
  }

  /** The keyboard transitions act on the mask registry through the mask
      registration and deregistration alone. */
  lemma KeyboardMasks(c: Controller, l: Listener, mask: EventMask)
    ensures RegisterKeystrokeListener(c, l, mask).keymasks == RegisterMask(c.keymasks, mask)
    ensures Present(c.keymasks, mask.value) ==>
      DeregisterDeviceListener(c, l, mask, Keyboard).keymasks == DeregisterMask(c.keymasks, mask)
  {
  }
}

=== FILE: dispatch.dfy ===
/** One pass of the keystroke dispatcher: peek at the next input event,
    relay it to the keystroke listeners in registration order until one
    consumes it, take it off the queue only if consumed, then run the
    keyboard grab pass. */
module KeyDispatch {
  import opened Base
  import opened EventMasks
  import opened Listeners
  import opened DeviceEventController
  import opened KeyGrab

  /** The input events the dispatcher can peek at; `state` is the modifier
      state of a key event. */
  datatype XEvent = KeyPressEvent(state: nat) | KeyReleaseEvent(state: nat) | OtherEvent(code: int)

  datatype KeyEventType = KeyPressed | KeyReleased

  /** Accessibility_KeyStroke: the normalised event handed to listeners. */
  datatype KeyStroke = KeyStroke(keyID: int, kind: KeyEventType, modifiers: nat)

  /** The keystroke built from the peeked event, given the key symbol the
      platform looks up for it. Only a key press fills in a keystroke; for
      any other event the listeners are still called, with a keystroke that
      was never filled in (`None`). */
  function DecodeKeyEvent(ev: XEvent, keysym: nat): (s: Option<KeyStroke>)
    ensures s.Some? <==> ev.KeyPressEvent?
    ensures s.Some? ==> s.value.kind == KeyPressed
    ensures s.Some? ==> s.value.modifiers < TWO_16 && (ev.state - s.value.modifiers) % TWO_16 == 0
    ensures s.Some? ==> -TWO_31 <= s.value.keyID < TWO_31 && (s.value.keyID - keysym) % TWO_32 == 0
    ensures s.Some? && keysym < TWO_31 ==> s.value.keyID == keysym
  {
    match ev
    case KeyPressEvent(state) => Some(KeyStroke(ToInt32(keysym), KeyPressed, ToUint16(state)))
    case _ => None
  }

  /** Listener `k` is called and reports the event consumed. */
  predicate Consumes(ls: seq<Listener>, replies: seq<bool>, k: int)
    requires |replies| == |ls|
  {
    0 <= k < |ls| && ls[k] != Nil && replies[k]
  }

  /** The positions below `n` of listeners that are not nil, in order. */
  function NonNilBelow(ls: seq<Listener>, n: nat): (r: seq<nat>)
    requires n <= |ls|
    ensures forall j :: 0 <= j < |r| ==> r[j] < n && ls[r[j]] != Nil
    ensures forall j, j' :: 0 <= j < j' < |r| ==> r[j] < r[j']
    ensures forall k :: 0 <= k < n && ls[k] != Nil ==> k in r
    decreases n
  {
    if n == 0 then []
    else NonNilBelow(ls, n - 1) + (if ls[n - 1] != Nil then [n - 1] else [])
  }

  /** The first listener at or after position `i` that consumes the event,
      if any: the dispatch verdict stated without a loop. */
  function FirstConsumerFrom(ls: seq<Listener>, replies: seq<bool>, i: nat): (r: Option<nat>)
    requires |replies| == |ls| && i <= |ls|
    ensures r.Some? ==> i <= r.value < |ls| && Consumes(ls, replies, r.value)
    ensures r.Some? ==> forall j :: i <= j < r.value ==> !Consumes(ls, replies, j)
    ensures r.None? ==> forall j :: i <= j < |ls| ==> !Consumes(ls, replies, j)
    decreases |ls| - i
  {
    if i == |ls| then None
    else if Consumes(ls, replies, i) then Some(i)
    else FirstConsumerFrom(ls, replies, i + 1)
  }

  function FirstConsumer(ls: seq<Listener>, replies: seq<bool>): Option<nat>
    requires |replies| == |ls|
  {
    FirstConsumerFrom(ls, replies, 0)
  }

  /** The relay loop. `replies[k]` is what listener `k` answers if it is
      called. Nil listeners are skipped; the loop stops after the first
      listener that consumes the event. */
  method Relay(ls: seq<Listener>, replies: seq<bool>) returns (invoked: seq<nat>, consumed: bool)
    requires |replies| == |ls|
    ensures consumed <==> FirstConsumer(ls, replies).Some?
    ensures consumed <==> exists k :: Consumes(ls, replies, k)
    ensures invoked == NonNilBelow(ls, if consumed then FirstConsumer(ls, replies).value + 1 else |ls|)
    ensures |ls| == 0 ==> !consumed && invoked == []
  {
    invoked := [];
    consumed := false;
    var i := 0;
    while i < |ls| && !consumed
      invariant 0 <= i <= |ls|
      invariant invoked == NonNilBelow(ls, i)
      invariant !consumed ==> FirstConsumer(ls, replies) == FirstConsumerFrom(ls, replies, i)
      invariant consumed ==> i > 0 && FirstConsumer(ls, replies) == Some(i - 1)
    {
      assert NonNilBelow(ls, i + 1) == invoked + (if ls[i] != Nil then [i] else []);
      assert FirstConsumerFrom(ls, replies, i)
        == if Consumes(ls, replies, i) then Some(i) else FirstConsumerFrom(ls, replies, i + 1);
      if ls[i] != Nil {
        invoked := invoked + [i];
        consumed := replies[i];
      }
      i := i + 1;
    }
    SomeConsumerIff(ls, replies);
  }

  /** Some listener consumes the event exactly when there is a first one. */
  lemma SomeConsumerIff(ls: seq<Listener>, replies: seq<bool>)
    requires |replies| == |ls|
    ensures FirstConsumer(ls, replies).Some? <==> exists k :: Consumes(ls, replies, k)
  {
    var f := FirstConsumer(ls, replies);
    if f.Some? {
      assert Consumes(ls, replies, f.value);
    }
  }

  /** Of the listeners a relay calls, only the last may report the event
      consumed, and it does exactly when the event was consumed; no
      listener after it is called. */
  lemma RelayStopsAtFirstConsumer(ls: seq<Listener>, replies: seq<bool>)
    requires |replies| == |ls|
    ensures var f := FirstConsumer(ls, replies);
      var invoked := NonNilBelow(ls, if f.Some? then f.value + 1 else |ls|);
      && (forall j :: 0 <= j < |invoked| - 1 ==> !replies[invoked[j]])
      && (f.Some? ==> |invoked| > 0 && invoked[|invoked| - 1] == f.value && replies[f.value])
      && (f.None? ==> forall j :: 0 <= j < |invoked| ==> !replies[invoked[j]])
  {
    var f := FirstConsumer(ls, replies);
    if f.Some? {
      var k := f.value;
      var invoked := NonNilBelow(ls, k + 1);
      assert invoked == NonNilBelow(ls, k) + [k];
      forall j | 0 <= j < |invoked| - 1
        ensures !replies[invoked[j]]
      {
        assert invoked[j] < k && ls[invoked[j]] != Nil;
        assert !Consumes(ls, replies, invoked[j]);
      }
    } else {
      var invoked := NonNilBelow(ls, |ls|);
      forall j | 0 <= j < |invoked|
        ensures !replies[invoked[j]]
      {
        assert !Consumes(ls, replies, invoked[j]);
      }
    }
  }

  /** One call of the key event check on controller `c` with a non-empty
      input queue. A consumed event is taken off the queue; otherwise it
      stays at its head. The replay request that follows is made in both
      cases and is not part of the result. The result is the verdict of the
      grab pass run afterwards; the controller is not changed. */
  method CheckKeyEvent(c: Controller, queue: seq<XEvent>, keysym: nat, replies: seq<bool>)
    returns (stroke: Option<KeyStroke>, invoked: seq<nat>, rest: seq<XEvent>, grab: GrabOutcome, ok: bool)
    requires |queue| > 0 && |replies| == |c.keyListeners|
    ensures stroke == DecodeKeyEvent(queue[0], keysym)
    ensures stroke.Some? <==> queue[0].KeyPressEvent?
    ensures (exists k :: Consumes(c.keyListeners, replies, k)) ==> rest == queue[1..]
    ensures !(exists k :: Consumes(c.keyListeners, replies, k)) ==> rest == queue
    ensures var f := FirstConsumer(c.keyListeners, replies);
      invoked == NonNilBelow(c.keyListeners, if f.Some? then f.value + 1 else |c.keyListeners|)
    ensures forall j :: 0 <= j < |invoked| ==> invoked[j] < |c.keyListeners| && c.keyListeners[invoked[j]] != Nil
    ensures forall j :: 0 <= j < |invoked| - 1 ==> !replies[invoked[j]]
    ensures c.keyListeners == [] ==> rest == queue && invoked == []
    ensures ok <==> forall i :: 0 <= i < |c.keymasks| ==> Grabbable(c.keymasks[i].value)
    ensures grab.ok == ok && grab == GrabKeyboard(c.keymasks)
  {
    stroke := DecodeKeyEvent(queue[0], keysym);
    var consumed;
    invoked, consumed := Relay(c.keyListeners, replies);
    assert forall j :: 0 <= j < |invoked| - 1 ==> !replies[invoked[j]] by {
      RelayStopsAtFirstConsumer(c.keyListeners, replies);
    }
    if consumed {
      rest := queue[1..];
    } else {
      rest := queue;
    }
    grab := GrabKeyboard(c.keymasks);
    ok := grab.ok;
  }
}

=== FILE: event_mask.dfy ===
/** The controller's key-mask registry: a list of `(value, refcount)`
    entries, looked up by mask value through the value comparator. */
module EventMasks {
  import opened Base

  /** Accessibility_ControllerEventMask: a modifier bitmask and the number
      of keystroke listeners registered with it. */
  datatype EventMask = EventMask(value: Value, refcount: nat)

  /** The list comparator: two masks match when their values are equal.
      NULL sorts before any mask, and two NULLs match. The difference of
      the two values is formed in a `long` and returned as a `gint`. */
  function Compare(p1: Option<EventMask>, p2: Option<EventMask>): (r: int)
    ensures r == 0 <==> (p1.None? && p2.None?) || (p1.Some? && p2.Some? && p1.value.value == p2.value.value)
    ensures p1.Some? && p2.None? ==> r == 1
    ensures p1.None? && p2.Some? ==> r == -1
    ensures -TWO_31 <= r < TWO_31
  {
    if p1.None? || p2.None? then
      (if p1.Some? then 1 else if p2.Some? then -1 else 0)
    else
      Int32OfDifferenceZero(p1.value.value, p2.value.value);
      ToInt32(p2.value.value - p1.value.value)
  }

  /** Some entry of `ms` carries mask value `v`. */
  predicate Present(ms: seq<EventMask>, v: Value) {
    exists i :: 0 <= i < |ms| && ms[i].value == v
  }

  /** The registry is well formed when its values are pairwise distinct
      and every entry is held by at least one registration. */
  predicate WellFormed(ms: seq<EventMask>) {
    && (forall i, j :: 0 <= i < j < |ms| ==> ms[i].value != ms[j].value)
    && (forall i :: 0 <= i < |ms| ==> ms[i].refcount >= 1)
  }

  /** The registry seen as a map from mask value to refcount; when a value
      occurs twice, the first entry is the one a lookup finds. */
  function AsMap(ms: seq<EventMask>): map<Value, nat>
    decreases |ms|
  {
    if |ms| == 0 then map[]
    else AsMap(ms[1..])[ms[0].value := ms[0].refcount]
  }

  /** The map view holds exactly the values present in the registry. */
  lemma {:induction false} AsMapDomain(ms: seq<EventMask>)
    ensures forall v :: v in AsMap(ms) <==> Present(ms, v)
    decreases |ms|
  {
    if |ms| > 0 {
      AsMapDomain(ms[1..]);
      forall v ensures Present(ms, v) <==> ms[0].value == v || Present(ms[1..], v) {
        if Present(ms[1..], v) {
          var k :| 0 <= k < |ms[1..]| && ms[1..][k].value == v;
          assert ms[k + 1].value == v;
        }
        if Present(ms, v) && ms[0].value != v {
          var k :| 0 <= k < |ms| && ms[k].value == v;
          assert ms[1..][k - 1].value == v;
        }
      }
    }
  }

  /** One more reference to `v` in a value-to-refcount map. */
  function Bump(counts: map<Value, nat>, v: Value): map<Value, nat> {
    counts[v := if v in counts then counts[v] + 1 else 1]
  }

  /** The entries whose value is not `v`, in list order. */
  function Without(ms: seq<EventMask>, v: Value): seq<EventMask>
    decreases |ms|
  {
    if |ms| == 0 then []
    else (if ms[0].value == v then [] else [ms[0]]) + Without(ms[1..], v)
  }

  /** g_list_find_custom with the value comparator: the position of the
      first entry matching `m`, or nothing when no entry has its value. */
  function FindMask(ms: seq<EventMask>, m: EventMask): (r: Option<nat>)
    ensures r.Some? ==> r.value < |ms| && ms[r.value].value == m.value
    ensures r.Some? ==> forall j :: 0 <= j < r.value ==> ms[j].value != m.value
    ensures r.None? <==> !Present(ms, m.value)
    decreases |ms|
  {
    if |ms| == 0 then None
    else if Compare(Some(ms[0]), Some(m)) == 0 then Some(0)
    else
      match FindMask(ms[1..], m)
      case None => None
      case Some(i) =>
        assert ms[i + 1] == ms[1..][i];
        assert forall j :: 1 <= j <= i ==> ms[j] == ms[1..][j - 1];
        Some(i + 1)
  }

  /** Registration of a keystroke listener's mask: bump the refcount of the
      entry with the same value, or append a fresh entry with refcount 1.
      The caller's own refcount is not consulted, and no value is refused. */
  function RegisterMask(ms: seq<EventMask>, m: EventMask): (r: seq<EventMask>)
    ensures |r| == if Present(ms, m.value) then |ms| else |ms| + 1
    ensures Present(r, m.value)
    ensures !Present(ms, m.value) ==> r == ms + [EventMask(m.value, 1)]
    ensures forall j :: 0 <= j < |ms| ==> r[j].value == ms[j].value
  {
    match FindMask(ms, m)
    case Some(i) =>
      var r := ms[i := ms[i].(refcount := ms[i].refcount + 1)];
      assert r[i].value == m.value;
      r
    case None =>
      assert (ms + [EventMask(m.value, 1)])[|ms|].value == m.value;
      ms + [EventMask(m.value, 1)]
  }

  /** Registration adds one reference to the mask's value, creating it at
      refcount 1 when it is new, and leaves every other entry as it was. */
  lemma RegisterMaskCounts(ms: seq<EventMask>, m: EventMask)
    ensures AsMap(RegisterMask(ms, m)) == Bump(AsMap(ms), m.value)
    ensures Without(RegisterMask(ms, m), m.value) == Without(ms, m.value)
  {
    match FindMask(ms, m)
    case Some(i) =>
      RaiseAt(ms, m, i);
      SetFirst(ms, i, ms[i].refcount + 1);
    case None =>
      AsMapDomain(ms);
      AppendFresh(ms, EventMask(m.value, 1));
  }

  /** Deregistration of a keystroke listener's mask, whose value must be
      registered: the first entry with that value loses one reference and
      is dropped when none is left. */
  function DeregisterMask(ms: seq<EventMask>, m: EventMask): (r: seq<EventMask>)
    requires Present(ms, m.value)
    ensures |ms| - 1 <= |r| <= |ms|
    ensures |r| == |ms| ==> forall j :: 0 <= j < |ms| ==> r[j].value == ms[j].value
    ensures |r| < |ms| ==> exists i :: 0 <= i < |ms| && r == ms[..i] + ms[i + 1..]
  {
    var i := FindMask(ms, m).value;
    if ms[i].refcount <= 1 then ms[..i] + ms[i + 1..]
    else ms[i := ms[i].(refcount := ms[i].refcount - 1)]
  }

  /** Deregistration drops the entry with the last reference to the mask's
      value and otherwise keeps the list's length; every other entry stays
      as it was. */
  lemma DeregisterMaskCounts(ms: seq<EventMask>, m: EventMask)
    requires Present(ms, m.value)
    ensures m.value in AsMap(ms)
    ensures |DeregisterMask(ms, m)| == if AsMap(ms)[m.value] <= 1 then |ms| - 1 else |ms|
    ensures Without(DeregisterMask(ms, m), m.value) == Without(ms, m.value)
    ensures AsMap(ms)[m.value] <= 1 && WellFormed(ms) ==> AsMap(DeregisterMask(ms, m)) == AsMap(ms) - {m.value}
  {
    DeregisterCases(ms, m);
  }

  /** While references remain, deregistration takes one from the mask's
      value in the map view. */
  lemma DeregisterMaskLowers(ms: seq<EventMask>, m: EventMask)
    requires Present(ms, m.value)
    ensures m.value in AsMap(ms)
    ensures AsMap(ms)[m.value] > 1 ==> AsMap(DeregisterMask(ms, m)) == AsMap(ms)[m.value := AsMap(ms)[m.value] - 1]
  {
    DeregisterCases(ms, m);
  }

  /** Both branches of a deregistration, in the map view and in the
      entries with other values. */
  lemma DeregisterCases(ms: seq<EventMask>, m: EventMask)
    requires Present(ms, m.value)
    ensures m.value in AsMap(ms)
    ensures |DeregisterMask(ms, m)| == if AsMap(ms)[m.value] <= 1 then |ms| - 1 else |ms|
    ensures Without(DeregisterMask(ms, m), m.value) == Without(ms, m.value)
    ensures AsMap(ms)[m.value] > 1 ==>
      AsMap(DeregisterMask(ms, m)) == AsMap(ms)[m.value := AsMap(ms)[m.value] - 1]
    ensures AsMap(ms)[m.value] <= 1 && WellFormed(ms) ==>
      AsMap(DeregisterMask(ms, m)) == AsMap(ms) - {m.value}
  {
    var i := FindMask(ms, m).value;
    if ms[i].refcount <= 1 {
      DropCounts(ms, m, i);
    } else {
      LowerCounts(ms, m, i);
    }
  }

  /** The last reference goes: the entry leaves the list. */
  lemma DropCounts(ms: seq<EventMask>, m: EventMask, i: nat)
    requires FindMask(ms, m) == Some(i) && ms[i].refcount <= 1
    ensures m.value in AsMap(ms) && AsMap(ms)[m.value] <= 1
    ensures |DeregisterMask(ms, m)| == |ms| - 1
    ensures Without(DeregisterMask(ms, m), m.value) == Without(ms, m.value)
    ensures WellFormed(ms) ==> AsMap(DeregisterMask(ms, m)) == AsMap(ms) - {m.value}
  {
    DropAt(ms, m, i);
    RemoveFirst(ms, i);
  }

  /** References remain: the entry loses one in place. */
  lemma LowerCounts(ms: seq<EventMask>, m: EventMask, i: nat)
    requires FindMask(ms, m) == Some(i) && ms[i].refcount > 1
    ensures m.value in AsMap(ms) && AsMap(ms)[m.value] > 1
    ensures |DeregisterMask(ms, m)| == |ms|
    ensures Without(DeregisterMask(ms, m), m.value) == Without(ms, m.value)
    ensures AsMap(DeregisterMask(ms, m)) == AsMap(ms)[m.value := AsMap(ms)[m.value] - 1]
  {
    LowerAt(ms, m, i);
    SetFirst(ms, i, ms[i].refcount - 1);
  }

  /** Registration of a present value updates the first entry holding it
      in place: that entry gains one reference and every other entry keeps
      its position and refcount, so the grab order is unchanged. */
  lemma RegisterMaskInPlace(ms: seq<EventMask>, m: EventMask)
    requires Present(ms, m.value)
    ensures var i := FindMask(ms, m).value;
      var r := RegisterMask(ms, m);
      && |r| == |ms|
      && r[i] == EventMask(ms[i].value, ms[i].refcount + 1)
      && forall j :: 0 <= j < |ms| && j != i ==> r[j] == ms[j]
  {
    var i := FindMask(ms, m).value;
    var r := ms[i := ms[i].(refcount := ms[i].refcount + 1)];
    assert RegisterMask(ms, m) == r by {
      RaiseAt(ms, m, i);
    }
  }

  /** Deregistration touches only the first entry holding the value: it
      loses one reference in place, or, with its last reference, leaves the
      list while the entries before and after it keep their order. */
  lemma DeregisterMaskInPlace(ms: seq<EventMask>, m: EventMask)
    requires Present(ms, m.value)
    ensures var i := FindMask(ms, m).value;
      var r := DeregisterMask(ms, m);
      && (ms[i].refcount > 1 ==>
            && |r| == |ms|
            && r[i] == EventMask(ms[i].value, ms[i].refcount - 1)
            && forall j :: 0 <= j < |ms| && j != i ==> r[j] == ms[j])
      && (ms[i].refcount <= 1 ==>
            && |r| == |ms| - 1
            && (forall j :: 0 <= j < i ==> r[j] == ms[j])
            && forall j :: i < j < |ms| ==> r[j - 1] == ms[j])
  {
    var i := FindMask(ms, m).value;
    if ms[i].refcount > 1 {
      LowerAt(ms, m, i);
    } else {
      DropShape(ms, m, i);
    }
  }

  /** The shape of `DropAt`'s result: the entries before `i` in place and
      the ones after it moved down by one. */
  lemma DropShape(ms: seq<EventMask>, m: EventMask, i: nat)
    requires FindMask(ms, m) == Some(i) && ms[i].refcount <= 1
    ensures var r := DeregisterMask(ms, m);
      && |r| == |ms| - 1
      && (forall j :: 0 <= j < i ==> r[j] == ms[j])
      && forall j :: i < j < |ms| ==> r[j - 1] == ms[j]
  {
    var r := ms[..i] + ms[i + 1..];
    assert DeregisterMask(ms, m) == r by {
      DropAt(ms, m, i);
    }
    assert forall j :: i < j < |ms| ==> r[j - 1] == ms[j];
  }

  // The three shapes an update takes

  lemma RaiseAt(ms: seq<EventMask>, m: EventMask, i: nat)
    requires FindMask(ms, m) == Some(i)
    ensures RegisterMask(ms, m) == ms[i := ms[i].(refcount := ms[i].refcount + 1)]
  {
  }

  lemma LowerAt(ms: seq<EventMask>, m: EventMask, i: nat)
    requires FindMask(ms, m) == Some(i) && ms[i].refcount > 1
    ensures DeregisterMask(ms, m) == ms[i := ms[i].(refcount := ms[i].refcount - 1)]
  {
  }

  lemma DropAt(ms: seq<EventMask>, m: EventMask, i: nat)
    requires FindMask(ms, m) == Some(i) && ms[i].refcount <= 1
    ensures DeregisterMask(ms, m) == ms[..i] + ms[i + 1..]
  {
  }

  // What changing, appending or removing one entry does to the two views

  lemma SetFirst(ms: seq<EventMask>, i: nat, rc: nat)
    requires i < |ms|
    requires forall j :: 0 <= j < i ==> ms[j].value != ms[i].value
    ensures ms[i].value in AsMap(ms) && AsMap(ms)[ms[i].value] == ms[i].refcount
    ensures AsMap(ms[i := ms[i].(refcount := rc)]) == AsMap(ms)[ms[i].value := rc]
    ensures Without(ms[i := ms[i].(refcount := rc)], ms[i].value) == Without(ms, ms[i].value)
  {
    AsMapFirst(ms, i);
    AsMapSetFirst(ms, i, rc);
    WithoutSet(ms, i, ms[i].(refcount := rc));
  }

  lemma AppendFresh(ms: seq<EventMask>, e: EventMask)
    requires !Present(ms, e.value)
    ensures AsMap(ms + [e]) == AsMap(ms)[e.value := e.refcount]
    ensures Without(ms + [e], e.value) == Without(ms, e.value)
  {
    AsMapAppendFresh(ms, e);
    WithoutAppend(ms, e, e.value);
  }

  lemma RemoveFirst(ms: seq<EventMask>, i: nat)
    requires i < |ms|
    requires forall j :: 0 <= j < i ==> ms[j].value != ms[i].value
    ensures ms[i].value in AsMap(ms) && AsMap(ms)[ms[i].value] == ms[i].refcount
    ensures Without(ms[..i] + ms[i + 1..], ms[i].value) == Without(ms, ms[i].value)
    ensures WellFormed(ms) ==> AsMap(ms[..i] + ms[i + 1..]) == AsMap(ms) - {ms[i].value}
  {
    AsMapFirst(ms, i);
    WithoutRemove(ms, i);
    if WellFormed(ms) {
      AsMapRemoveUnique(ms, i);
    }
  }

  // Lemmas about the map view

  lemma {:induction false} AsMapFirst(ms: seq<EventMask>, i: nat)
    requires i < |ms|
    requires forall j :: 0 <= j < i ==> ms[j].value != ms[i].value
    ensures ms[i].value in AsMap(ms) && AsMap(ms)[ms[i].value] == ms[i].refcount
    decreases i
  {
    if i > 0 {
      assert ms[1..][i - 1] == ms[i];
      AsMapFirst(ms[1..], i - 1);
    }
  }

  lemma {:induction false} AsMapAppendFresh(ms: seq<EventMask>, e: EventMask)
    requires !Present(ms, e.value)
    ensures AsMap(ms + [e]) == AsMap(ms)[e.value := e.refcount]
    decreases |ms|
  {
    if |ms| == 0 {
      assert [] + [e] == [e];
    } else {
      assert (ms + [e])[1..] == ms[1..] + [e];
      AsMapAppendFresh(ms[1..], e);
      assert ms[0].value != e.value;
    }
  }

  lemma {:induction false} AsMapSetFirst(ms: seq<EventMask>, i: nat, rc: nat)
    requires i < |ms|
    requires forall j :: 0 <= j < i ==> ms[j].value != ms[i].value
    ensures AsMap(ms[i := ms[i].(refcount := rc)]) == AsMap(ms)[ms[i].value := rc]
    decreases i
  {
    var e := ms[i].(refcount := rc);
    if i == 0 {
      assert ms[i := e][1..] == ms[1..];
    } else {
      assert ms[i := e][1..] == ms[1..][i - 1 := e];
      assert ms[1..][i - 1] == ms[i];
      AsMapSetFirst(ms[1..], i - 1, rc);
      assert ms[i := e][0] == ms[0];
    }
  }

  lemma {:induction false} AsMapRemoveUnique(ms: seq<EventMask>, i: nat)
    requires i < |ms|
    requires forall j :: 0 <= j < |ms| && j != i ==> ms[j].value != ms[i].value
    ensures AsMap(ms[..i] + ms[i + 1..]) == AsMap(ms) - {ms[i].value}
    decreases i
  {
    if i == 0 {
      assert ms[..0] + ms[1..] == ms[1..];
      assert !Present(ms[1..], ms[0].value) by {
        forall k | 0 <= k < |ms[1..]| ensures ms[1..][k].value != ms[0].value {
          assert ms[1..][k] == ms[k + 1];
        }
      }
      AsMapDomain(ms[1..]);
      UpdateThenRemove(AsMap(ms[1..]), ms[0].value, ms[0].refcount);
    } else {
      var tail := ms[1..];
      UniqueInTail(ms, i);
      AsMapRemoveUnique(tail, i - 1);
      AsMapRemoveStep(ms, i);
    }
  }

  lemma UniqueInTail(ms: seq<EventMask>, i: nat)
    requires 0 < i < |ms|
    requires forall j :: 0 <= j < |ms| && j != i ==> ms[j].value != ms[i].value
    ensures forall j :: 0 <= j < |ms| - 1 && j != i - 1 ==> ms[1..][j].value != ms[1..][i - 1].value
  {
  }

  lemma AsMapRemoveStep(ms: seq<EventMask>, i: nat)
    requires 0 < i < |ms| && ms[0].value != ms[i].value
    requires AsMap(ms[1..][..i - 1] + ms[1..][i..]) == AsMap(ms[1..]) - {ms[i].value}
    ensures AsMap(ms[..i] + ms[i + 1..]) == AsMap(ms) - {ms[i].value}
  {
    var tail := ms[1..];
    var rest := ms[..i] + ms[i + 1..];
    assert rest[0] == ms[0];
    assert rest[1..] == tail[..i - 1] + tail[i..];
    assert AsMap(rest) == AsMap(rest[1..])[ms[0].value := ms[0].refcount];
    assert AsMap(ms) == AsMap(tail)[ms[0].value := ms[0].refcount];
    RemoveThenUpdate(AsMap(tail), ms[i].value, ms[0].value, ms[0].refcount);
  }

  lemma UpdateThenRemove(m: map<Value, nat>, v: Value, x: nat)
    requires v !in m
    ensures m[v := x] - {v} == m
  {
  }

  lemma RemoveThenUpdate(m: map<Value, nat>, v: Value, k: Value, x: nat)
    requires k != v
    ensures (m - {v})[k := x] == m[k := x] - {v}
  {
  }

  // Lemmas about the entries other than one value

  lemma {:induction false} WithoutAppend(ms: seq<EventMask>, e: EventMask, v: Value)
    requires e.value == v
    ensures Without(ms + [e], v) == Without(ms, v)
    decreases |ms|
  {
    if |ms| == 0 {
      assert [] + [e] == [e];
      assert [e][1..] == [];
    } else {
      assert (ms + [e])[1..] == ms[1..] + [e];
      WithoutAppend(ms[1..], e, v);
    }
  }

  lemma {:induction false} WithoutSet(ms: seq<EventMask>, i: nat, e: EventMask)
    requires i < |ms| && e.value == ms[i].value
    ensures Without(ms[i := e], e.value) == Without(ms, e.value)
    decreases i
  {
    if i == 0 {
      assert ms[i := e][1..] == ms[1..];
    } else {
      assert ms[i := e][1..] == ms[1..][i - 1 := e];
      WithoutSet(ms[1..], i - 1, e);
    }
  }

  lemma {:induction false} WithoutRemove(ms: seq<EventMask>, i: nat)
    requires i < |ms|
    ensures Without(ms[..i] + ms[i + 1..], ms[i].value) == Without(ms, ms[i].value)
    decreases i
  {
    var v := ms[i].value;
    var tail := ms[1..];
    assert ms == [ms[0]] + tail;
    WithoutCons(ms[0], tail, v);
    if i == 0 {
      assert ms[..0] + ms[1..] == tail;
    } else {
      assert tail[i - 1] == ms[i];
      WithoutRemove(tail, i - 1);
      var shorter := tail[..i - 1] + tail[i..];
      assert ms[..i] + ms[i + 1..] == [ms[0]] + shorter;
      WithoutCons(ms[0], shorter, v);
    }
  }

  lemma WithoutCons(e: EventMask, rest: seq<EventMask>, v: Value)
    ensures Without([e] + rest, v) == (if e.value == v then [] else [e]) + Without(rest, v)
  {
    assert ([e] + rest)[1..] == rest;
  }

  // Properties of the registry

  lemma SetKeepsWellFormed(ms: seq<EventMask>, i: nat, rc: nat)
    requires WellFormed(ms) && i < |ms| && rc >= 1
    ensures WellFormed(ms[i := ms[i].(refcount := rc)])
  {
  }

  lemma AppendKeepsWellFormed(ms: seq<EventMask>, e: EventMask)
    requires WellFormed(ms) && !Present(ms, e.value) && e.refcount >= 1
    ensures WellFormed(ms + [e])
  {
    var r := ms + [e];
    forall i, j | 0 <= i < j < |r| ensures r[i].value != r[j].value {
      if j == |ms| {
        assert r[i] == ms[i];
      }
    }
  }

  lemma RemoveKeepsWellFormed(ms: seq<EventMask>, i: nat)
    requires WellFormed(ms) && i < |ms|
    ensures WellFormed(ms[..i] + ms[i + 1..])
  {
    var r := ms[..i] + ms[i + 1..];
    assert forall j :: 0 <= j < |r| ==> r[j] == ms[if j < i then j else j + 1];
  }

  /** Registration keeps the registry well formed. */
  lemma RegisterPreservesWellFormed(ms: seq<EventMask>, m: EventMask)
    requires WellFormed(ms)
    ensures WellFormed(RegisterMask(ms, m))
  {
    match FindMask(ms, m)
    case Some(i) =>
      SetKeepsWellFormed(ms, i, ms[i].refcount + 1);
    case None =>
      AppendKeepsWellFormed(ms, EventMask(m.value, 1));
  }

  /** Deregistration keeps the registry well formed. */
  lemma DeregisterPreservesWellFormed(ms: seq<EventMask>, m: EventMask)
    requires WellFormed(ms) && Present(ms, m.value)
    ensures WellFormed(DeregisterMask(ms, m))
  {
    var i := FindMask(ms, m).value;
    if ms[i].refcount <= 1 {
      RemoveKeepsWellFormed(ms, i);
    } else {
      SetKeepsWellFormed(ms, i, ms[i].refcount - 1);
    }
  }

  /** Registering a mask value and deregistering it again restores the
      registry exactly, whether the value was new or already present. */
  lemma RegisterThenDeregister(ms: seq<EventMask>, m: EventMask)
    requires WellFormed(ms)
    ensures DeregisterMask(RegisterMask(ms, m), m) == ms
  {
    match FindMask(ms, m)
    case Some(i) =>
      assert ms[i].refcount >= 1;
      BumpThenLower(ms, m, i);
    case None => AppendThenDrop(ms, m);
  }

  lemma BumpThenLower(ms: seq<EventMask>, m: EventMask, i: nat)
    requires FindMask(ms, m) == Some(i) && ms[i].refcount >= 1
    ensures DeregisterMask(RegisterMask(ms, m), m) == ms
  {
    var r := ms[i := ms[i].(refcount := ms[i].refcount + 1)];
    RaiseAt(ms, m, i);
    FirstMatch(r, m, i);
    LowerAt(r, m, i);
    assert r[i].(refcount := r[i].refcount - 1) == ms[i];
  }

  /** The lookup answers the first position holding the value. */
  lemma FirstMatch(ms: seq<EventMask>, m: EventMask, i: nat)
    requires i < |ms| && ms[i].value == m.value
    requires forall j :: 0 <= j < i ==> ms[j].value != m.value
    ensures FindMask(ms, m) == Some(i)
  {
    assert Present(ms, m.value);
    var k := FindMask(ms, m).value;
    assert ms[k].value == m.value;
  }

  lemma AppendThenDrop(ms: seq<EventMask>, m: EventMask)
    requires FindMask(ms, m) == None
    ensures DeregisterMask(RegisterMask(ms, m), m) == ms
  {
    var r := ms + [EventMask(m.value, 1)];
    assert RegisterMask(ms, m) == r;
    assert FindMask(r, m) == Some(|ms|) by {
      assert r[|ms|].value == m.value;
      assert forall j :: 0 <= j < |ms| ==> r[j] == ms[j];
    }
    assert r[..|ms|] + r[|ms| + 1..] == ms;
  }

  /** A registry holding one value: registering it again adds a reference,
      deregistering it takes one away and drops the entry with the last. */
  lemma SingleEntry(v: Value, k: nat, m: EventMask)
    requires m.value == v
    ensures RegisterMask([EventMask(v, k)], m) == [EventMask(v, k + 1)]
    ensures DeregisterMask([EventMask(v, k)], m) == if k <= 1 then [] else [EventMask(v, k - 1)]
  {
    var ms := [EventMask(v, k)];
    assert FindMask(ms, m) == Some(0) by {
      assert ms[0].value == m.value;
    }
  }
}

=== FILE: keygrab.dfy ===
/** The keyboard grab pass: every registered mask is turned into a passive
    grab of any key with that modifier combination on the root window,
    until a mask with the Control modifier is met. */
module KeyGrab {
  import opened Base
  import opened EventMasks

  /** ControlMask of the X protocol, `1 << 2`. */
  const ControlMask: bv32 := 4

  /** The value read for a list entry; a NULL entry reads as all ones, so
      it has Control set and can never be grabbed. */
  function MaskVal(p: Option<EventMask>): (v: Value)
    ensures p.Some? ==> v == p.value.value
    ensures p.None? ==> !Grabbable(v)
  {
    match p
    case None => 0xFFFF_FFFF
    case Some(m) => m.value
  }

  /** A modifier combination can be grabbed unless it includes Control:
      bit 2 of the value, the bit ControlMask sets, is clear. */
  predicate Grabbable(v: Value) {
    (v / 4) % 2 == 0
  }

  /** The bit test is the C test `value & ControlMask`. */
  lemma GrabbableIsMaskTest(v: Value)
    ensures Grabbable(v) <==> (v as bv32) & ControlMask == 0
  {
  }

  /** The grabs issued by one pass and the pass's verdict. */
  datatype GrabOutcome = GrabOutcome(grabbed: seq<Value>, ok: bool)

  /** One grab pass over the list entries in order. Each grabbable value is
      grabbed; the first value with Control stops the pass with a failure,
      and the grabs already made stay in place. */
  function GrabPass(ps: seq<Option<EventMask>>): (r: GrabOutcome)
    ensures |r.grabbed| <= |ps|
    ensures forall i :: 0 <= i < |r.grabbed| ==> r.grabbed[i] == MaskVal(ps[i]) && Grabbable(r.grabbed[i])
    ensures r.ok <==> |r.grabbed| == |ps|
    ensures !r.ok ==> !Grabbable(MaskVal(ps[|r.grabbed|]))
    decreases |ps|
  {
    if |ps| == 0 then GrabOutcome([], true)
    else if !Grabbable(MaskVal(ps[0])) then GrabOutcome([], false)
    else
      var rest := GrabPass(ps[1..]);
      GrabOutcome([MaskVal(ps[0])] + rest.grabbed, rest.ok)
  }

  /** The pass succeeds exactly when no entry includes Control, and then
      every entry has been grabbed, in list order. */
  lemma GrabPassSucceedsIff(ps: seq<Option<EventMask>>)
    ensures GrabPass(ps).ok <==> forall i :: 0 <= i < |ps| ==> Grabbable(MaskVal(ps[i]))
    ensures GrabPass(ps).ok ==> GrabPass(ps).grabbed == seq(|ps|, i requires 0 <= i < |ps| => MaskVal(ps[i]))
  {
    var r := GrabPass(ps);
    if !r.ok {
      assert !Grabbable(MaskVal(ps[|r.grabbed|]));
    }
  }

  /** A NULL entry reads as a value with Control set, so it fails the pass. */
  lemma NullEntryFails(ps: seq<Option<EventMask>>)
    requires None in ps
    ensures !GrabPass(ps).ok
  {
    var i :| 0 <= i < |ps| && ps[i] == None;
    assert !Grabbable(MaskVal(ps[i]));
    GrabPassSucceedsIff(ps);
  }

  /** The grab pass of a controller, over its key-mask registry. */
  function GrabKeyboard(ms: seq<EventMask>): (r: GrabOutcome)
    ensures r.ok <==> forall i :: 0 <= i < |ms| ==> Grabbable(ms[i].value)
    ensures r.ok ==> |r.grabbed| == |ms|
    ensures |r.grabbed| <= |ms| && forall i :: 0 <= i < |r.grabbed| ==> r.grabbed[i] == ms[i].value
    ensures forall i :: 0 <= i < |r.grabbed| ==> Grabbable(r.grabbed[i])
    ensures !r.ok ==> |r.grabbed| < |ms| && !Grabbable(ms[|r.grabbed|].value)
    ensures |ms| == 0 ==> r == GrabOutcome([], true)
  {
    var ps := seq(|ms|, i requires 0 <= i < |ms| => Some(ms[i]));
    assert forall i :: 0 <= i < |ms| ==> MaskVal(ps[i]) == ms[i].value;
    GrabPassSucceedsIff(ps);
    GrabPass(ps)
  }
}

=== FILE: listeners.dfy ===
/** The controller's list of keystroke listeners, in registration order. */
module Listeners {

  /** A keystroke listener object reference. References are compared by
      object equivalence only, so a handle stands for the remote object;
      `Nil` is the nil object reference, which may be registered too. */
  datatype Listener = Nil | Ref(handle: nat)

  /** No listener before position `k` is equivalent to `l`. */
  predicate NoneBefore(ls: seq<Listener>, l: Listener, k: int)
    requires k <= |ls|
  {
    forall j :: 0 <= j < k ==> ls[j] != l
  }

  /** The position of the first listener equivalent to `l`. */
  function IndexOf(ls: seq<Listener>, l: Listener): (i: nat)
    requires l in ls
    ensures i < |ls| && ls[i] == l && NoneBefore(ls, l, i)
  {
    if ls[0] == l then 0
    else IndexOf(ls[1..], l) + 1
  }

  /** Registration appends the listener, even when an equivalent one is
      already registered. */
  function AddListener(ls: seq<Listener>, l: Listener): (r: seq<Listener>)
    ensures |r| == |ls| + 1 && r[..|ls|] == ls && r[|ls|] == l
    ensures multiset(r)[l] == multiset(ls)[l] + 1
    ensures forall x :: x != l ==> multiset(r)[x] == multiset(ls)[x]
  {
    ls + [l]
  }

  /** Deregistration removes the first listener equivalent to `l`, and does
      nothing when there is none. */
  function RemoveListener(ls: seq<Listener>, l: Listener): (r: seq<Listener>)
    ensures |ls| - 1 <= |r| <= |ls|
    ensures |r| == |ls| ==> r == ls
    decreases |ls|
  {
    if |ls| == 0 then []
    else if ls[0] == l then ls[1..]
    else [ls[0]] + RemoveListener(ls[1..], l)
  }

  /** Deregistering a listener that is not registered changes nothing. */
  lemma {:induction false} RemoveListenerAbsent(ls: seq<Listener>, l: Listener)
    requires NoneBefore(ls, l, |ls|)
    ensures RemoveListener(ls, l) == ls
    decreases |ls|
  {
    if |ls| > 0 {
      RemoveListenerAbsent(ls[1..], l);
      assert ls == [ls[0]] + ls[1..];
    }
  }

  /** What deregistration removes is the first equivalent listener; the
      listeners before and after it keep their order. */
  lemma {:induction false} RemoveListenerRemovesFirst(ls: seq<Listener>, l: Listener, k: nat)
    requires k < |ls| && ls[k] == l && NoneBefore(ls, l, k)
    ensures RemoveListener(ls, l) == ls[..k] + ls[k + 1..]
    decreases k
  {
    if k > 0 {
      var tail := ls[1..];
      assert tail[k - 1] == l;
      RemoveListenerRemovesFirst(tail, l, k - 1);
      assert ls[..k] == [ls[0]] + tail[..k - 1];
      assert ls[k + 1..] == tail[k..];
    }
  }

  /** Deregistration takes exactly one registration of `l` away, when there
      is one, and leaves every other registration in place. */
  lemma RemoveListenerCount(ls: seq<Listener>, l: Listener)
    ensures l in ls ==> multiset(ls) == multiset(RemoveListener(ls, l)) + multiset{l}
    ensures l !in ls ==> RemoveListener(ls, l) == ls
  {
    if l in ls {
      RemovePresentCount(ls, l);
    } else {
      RemoveListenerAbsent(ls, l);
    }
  }

  lemma RemovePresentCount(ls: seq<Listener>, l: Listener)
    requires l in ls
    ensures multiset(ls) == multiset(RemoveListener(ls, l)) + multiset{l}
    ensures RemoveListener(ls, l) == ls[..IndexOf(ls, l)] + ls[IndexOf(ls, l) + 1..]
  {
    var i := IndexOf(ls, l);
    var front, back := ls[..i], ls[i + 1..];
    assert RemoveListener(ls, l) == front + back by {
      RemoveListenerRemovesFirst(ls, l, i);
    }
    assert multiset(ls) == multiset(front + back) + multiset{l} by {
      assert ls == front + [l] + back;
      assert multiset(front + back) == multiset(front) + multiset(back);
    }
  }

  /** Adding a new listener and removing it again gives back the list. */
  lemma AddThenRemoveNew(ls: seq<Listener>, l: Listener)
    requires l !in ls
    ensures RemoveListener(AddListener(ls, l), l) == ls
  {
    var a := ls + [l];
    assert NoneBefore(a, l, |ls|);
    RemoveListenerRemovesFirst(a, l, |ls|);
    assert a[..|ls|] + a[|ls| + 1..] == ls;
  }

  /** Adding a listener that is already registered and removing it again
      drops the older registration; the new one stays at the end. */
  lemma AddThenRemoveExisting(ls: seq<Listener>, l: Listener)
    requires l in ls
    ensures RemoveListener(AddListener(ls, l), l) == RemoveListener(ls, l) + [l]
  {
    var a := ls + [l];
    var i := IndexOf(ls, l);
    assert RemoveListener(a, l) == a[..i] + a[i + 1..] by {
      assert NoneBefore(a, l, i);
      RemoveListenerRemovesFirst(a, l, i);
    }
    assert RemoveListener(ls, l) == ls[..i] + ls[i + 1..] by {
      RemoveListenerRemovesFirst(ls, l, i);
    }
    assert a[..i] + a[i + 1..] == ls[..i] + ls[i + 1..] + [l];
  }

  /** Adding a listener and removing it again gives back the same
      registrations, and the very same list when the listener was new. */
  lemma AddThenRemoveCount(ls: seq<Listener>, l: Listener)
    ensures multiset(RemoveListener(ls + [l], l)) == multiset(ls)
    ensures l !in ls ==> RemoveListener(ls + [l], l) == ls
  {
    var back := RemoveListener(ls + [l], l);
    assert (ls + [l])[|ls|] == l;
    RemoveListenerCount(ls + [l], l);
    assert multiset(back) + multiset{l} == multiset(ls) + multiset{l};
    forall x ensures multiset(back)[x] == multiset(ls)[x] {
      assert (multiset(back) + multiset{l})[x] == (multiset(ls) + multiset{l})[x];
    }
    if l !in ls {
      AddThenRemoveNew(ls, l);
    }
  }
}
